=== FILE: README.md ===
# Embedding-job worker and duplicate-suggestion gate

This project models two Supabase edge functions of a notes application in Dafny.

- **process-embedding-jobs**: a worker that drains the `document_embedding_jobs` queue.
  - It takes up to five of the oldest `pending` jobs.
  - It marks each job `processing` and reads its document's content.
  - It asks the embedding provider for a vector and writes that vector onto the document.
  - It marks the job `done`.
  - On any failure it records one more attempt and the truncated error message. The job goes back to `pending`, or to `error` once three attempts are spent.
  - It answers with a report: how many jobs were processed, the batch size, and one entry per job.
- **suggest-similar**: a handler that embeds a draft text and searches for similar stored notes. It proposes the best match when that match is similar enough.

The model is functional. The database is a pair of maps (`Jobs.Store`). The answer of every collaborator call is a parameter:
- the jobs query, given as an `Outcome`;
- per job, the processing mark, the document read, the provider, the embedding write, the done write and the failure write (`Worker.Calls`);
- in the handler, the embedding provider and the `match_documents` search.

A run is therefore determined by the store, those answers, and how the query orders jobs with equal `created_at`, which the model leaves open. It also returns the trace of calls it made, which lets the model state which calls happen in which order.

Modules:
- `Wrappers`: `Option` and `Outcome`.
- `Text`: the ECMAScript `trim` and `slice(0, n)` the sources use.
- `Jobs`: rows, constants, row updates and the job invariant.
- `Queue`: the pending-jobs query.
- `Worker`: the try block and one loop iteration.
- `Batch`: the loop and the request handler.
- `Suggest`: the suggestion handler.

Four behaviours the model follows exactly as the code has them:
- **The processing mark.** Its result is never read. If that write fails, the job is processed anyway and its row stays `pending` until the done or failure write.
- **A failed failure write.** If the failure write fails, the report still gives the status the job would have had, and the row stays as the processing mark left it. That is `processing`, which no later run picks up again, or `pending` if the mark failed too, in which case the next run dequeues the job again. `Worker.Settled` states this outcome.
- **A failed done write.** If the `done` write fails, the job is counted as a failure. The document nevertheless keeps the embedding that was just written.
- **The failure count.** The next attempt count comes from the `attempts` value read when the job was dequeued, plus one, with a missing value read as 0.

## Model

| member | source | states |
|---|---|---|
| Text.TrimStart | backend/supabase/functions/process-embedding-jobs/index.ts:104 | the result is a suffix of the input. What it drops is all whitespace, and it does not start with whitespace. |
| Text.TrimEnd | backend/supabase/functions/process-embedding-jobs/index.ts:104 | the result is a prefix of the input. What it drops is all whitespace, and it does not end with whitespace. |
| Text.Trim | backend/supabase/functions/process-embedding-jobs/index.ts:104 | the result is the stretch of the input left between a whitespace prefix and a whitespace suffix, and it neither starts nor ends with whitespace. It is empty exactly when the input is all whitespace. |
| Text.FramedBlank | backend/supabase/functions/suggest-similar/index.ts:46 | a stretch framed by whitespace that does not start with whitespace is empty exactly when the whole text is whitespace. So `trim().length` is 0 exactly for blank text. |
| Text.WhitespaceClass | backend/supabase/functions/process-embedding-jobs/index.ts:104 | the class `trim()` removes holds space, tab, line feed, no-break space, every code point from the en quad to the hair space, the paragraph separator and the byte order mark. It does not hold ASCII letters or digits, the zero-width space or NEL. |
| Text.TrimUnique | backend/supabase/functions/process-embedding-jobs/index.ts:104 | a stretch with whitespace before and after it, and non-whitespace first and last characters, is exactly what `trim()` returns. |
| Text.TrimPadded | backend/supabase/functions/suggest-similar/index.ts:46 | adding whitespace on either side of a text never changes its `trim()`. |
| Text.Take | backend/supabase/functions/process-embedding-jobs/index.ts:149 | `slice(0, n)` returns a prefix of the input whose length is the smaller of `n` and the input's length. |
| Jobs.BlankIsTrimmedEmpty | backend/supabase/functions/process-embedding-jobs/index.ts:104 | content counts as blank exactly when it is null or its `trim()` is empty. |
| Jobs.DoneRow | backend/supabase/functions/process-embedding-jobs/index.ts:128-131 | the done write sets `done` and clears `last_error`, changes nothing else, and the result meets the job invariant whenever the attempt count is not negative. |
| Jobs.FailedRow | backend/supabase/functions/process-embedding-jobs/index.ts:141-152 | the failure write stores the snapshot's attempts + 1, the status `error` iff that reaches 3 and `pending` otherwise, and a prefix of the message of length min(1000, its length). It changes nothing else. |
| Jobs.FailedRowKeepsInvariant | backend/supabase/functions/process-embedding-jobs/index.ts:140-152 | one failure write on a pending job that respects the invariant keeps the invariant: attempts never exceed 3 and `error` rows have exactly 3 attempts. The stored message is the first min(1000, its length) characters of the thrown one, whatever the new status. |
| Jobs.RetryBudget | backend/supabase/functions/process-embedding-jobs/index.ts:141-142 | after n consecutive failures a job has a+n attempts. It is in `error` exactly when n equals the remaining budget 3 - a, so a job is retried until its third failure and no longer. |
| Queue.Dequeue | backend/supabase/functions/process-embedding-jobs/index.ts:59-64 | the batch holds only pending jobs with distinct ids, sorted by `created_at`, and holds min(5, number pending) of them. It is empty iff nothing is pending. No pending job left out is older than a job taken; ties are resolved arbitrarily. |
| Queue.DequeueLeavesRest | backend/supabase/functions/process-embedding-jobs/index.ts:59-64 | the batch is a subset of the pending jobs and leaves exactly pending - batch of them behind. When more than 5 are pending, exactly 5 are taken. |
| Queue.OlderJobsFirst | backend/supabase/functions/process-embedding-jobs/index.ts:63-64 | a pending job strictly older than a batched job is itself in the batch, at an earlier position. |
| Worker.ReadText | backend/supabase/functions/process-embedding-jobs/index.ts:94-106 | the document stage succeeds iff the read passed, the document exists and its content is not null or blank; the text it passes on is the stored content. |
| Worker.Provide | backend/supabase/functions/process-embedding-jobs/index.ts:109-117 | the provider stage succeeds iff the provider answered with an embedding, and yields exactly that vector. |
| Worker.Persist | backend/supabase/functions/process-embedding-jobs/index.ts:119-133 | the persist stage succeeds iff both the embedding write and the done write pass. Only the job's document changes, its embedding set only when the write passed, and the provider is not called. |
| Worker.TryEmbed | backend/supabase/functions/process-embedding-jobs/index.ts:92-137 | the try block succeeds iff every stage succeeds. The job's document gets the provider's vector exactly when the read passed, the content is not blank, the provider returned an array and the embedding write passed; otherwise no document changes. Blank content throws "Document content is empty" after only the document read. |
| Worker.TryEmbedAsksForText | backend/supabase/functions/process-embedding-jobs/index.ts:104-112 | every provider call asks for the job's document's stored, non-blank content. |
| Worker.FailureKinds | backend/supabase/functions/process-embedding-jobs/index.ts:100-133 | which error each failing stage throws. Stages run in order and the first failure wins. A failed done write still leaves the new embedding stored. |
| Worker.MessageIdentifiesFailure | backend/supabase/functions/process-embedding-jobs/index.ts:100-133 | apart from a provider exception, two failures with the same message are the same failure with the same detail, so the report note tells which stage failed. |
| Worker.ProcessJob | backend/supabase/functions/process-embedding-jobs/index.ts:85-161 | one loop iteration reports the job's id, reports `done` iff every stage succeeded, and changes no other job row. |
| Worker.KeptDocumentsSameOutcome | backend/supabase/functions/process-embedding-jobs/index.ts:94-133 | how far the try block gets, and what it throws, depends only on which documents exist and on their texts. Embeddings written by earlier jobs never change a later job's outcome. |
| Worker.ProcessJobSettles | backend/supabase/functions/process-embedding-jobs/index.ts:87-159 | the job's row and report entry follow the retry policy (see the settling rules below this table). A failed job's report note is exactly the message its try block threw, and `last_error` stores a prefix of it. |
| Worker.SettleRow | backend/supabase/functions/process-embedding-jobs/index.ts:87-152 | the row after the processing mark and the done or failure write is settled by the retry policy against the report entry for the same outcome. |
| Worker.ReportEntry | backend/supabase/functions/process-embedding-jobs/index.ts:136-159 | the entry carries the job's id; it is `done` with no note iff nothing was thrown; otherwise its note is the thrown message and its status is `error` iff attempts + 1 reaches 3, else `pending`. |
| Worker.ProcessJobDocuments | backend/supabase/functions/process-embedding-jobs/index.ts:119-125 | an iteration writes only its own document's embedding, and does so exactly when the read passed, the content is not blank, the provider returned an array and the embedding write passed. A `done` job's document holds exactly the provider's vector. |
| Worker.ProcessJobCalls | backend/supabase/functions/process-embedding-jobs/index.ts:87-112 | the processing mark is the first call. The provider is only asked for the job's document's non-blank text. |
| Batch.ProcessBatch | backend/supabase/functions/process-embedding-jobs/index.ts:81-161 | the loop yields one report entry per dequeued job, and `processed` counts exactly the `done` entries. |
| Batch.BatchReportsInOrder | backend/supabase/functions/process-embedding-jobs/index.ts:85-159 | the i-th report entry belongs to the i-th dequeued job. |
| Batch.BatchFrame | backend/supabase/functions/process-embedding-jobs/index.ts:85-161 | the loop adds and removes no job rows and leaves rows outside the batch unchanged. |
| Batch.BatchDocuments | backend/supabase/functions/process-embedding-jobs/index.ts:119-125 | no document is removed, no content changes, and documents no batched job refers to are untouched. |
| Batch.BatchDoneEmbedded | backend/supabase/functions/process-embedding-jobs/index.ts:119-136 | every job reported `done` leaves its document present with an embedding at the end of the run, even if later jobs rewrite it. |
| Batch.BatchOutcomes | backend/supabase/functions/process-embedding-jobs/index.ts:92-159 | entry i is `done` iff every stage of job i passes against the documents the run started from. Otherwise its note is the message that job's try block throws against those documents. |
| Batch.BatchUnwrittenDocuments | backend/supabase/functions/process-embedding-jobs/index.ts:119-125 | a document none of whose batched jobs gets as far as a passing embedding write ends the run unchanged. |
| Batch.BatchEmbedsOnlyText | backend/supabase/functions/process-embedding-jobs/index.ts:104-112 | across a whole run, the provider is never asked to embed blank text. |
| Batch.BatchSettles | backend/supabase/functions/process-embedding-jobs/index.ts:139-159 | every job of the batch ends settled by the retry policy against its dequeued snapshot. |
| Batch.SettledKeepsIdentity | backend/supabase/functions/process-embedding-jobs/index.ts:128-152 | settling changes only status, attempts and last error, never the job's id, document or creation time. |
| Batch.SettledKeepsInvariant | backend/supabase/functions/process-embedding-jobs/index.ts:140-152 | settling a pending job keeps the job invariant. |
| Batch.BatchKeepsInvariant | backend/supabase/functions/process-embedding-jobs/index.ts:85-161 | the loop keeps the store well formed and keeps the invariant of every job row. |
| Batch.Run | backend/supabase/functions/process-embedding-jobs/index.ts:58-163 | the whole request, in the fetch-failure, empty-queue and completed cases below. The fetch error is reported iff the fetch failed, and a passing fetch with pending jobs always ends in a report. After a report, entry i is `done` iff every stage of job i passed, and otherwise carries the message that job threw. Documents no batched job refers to are unchanged, and so are documents none of whose jobs reached a passing embedding write. Every `done` job's document has an embedding. In every case the store stays well formed, the job invariant is kept, and no document is lost. |
| Suggest.Decide | backend/supabase/functions/suggest-similar/index.ts:79-101 | a match is proposed iff the list is non-empty and its first candidate's similarity is at least the threshold. The match copies that candidate's id and similarity, and its content is a prefix of the candidate's content (null read as "") of length min(300, its length). |
| Suggest.Handle | backend/supabase/functions/suggest-similar/index.ts:40-101 | text that is not a string or whose trimmed form is under 10 characters gets `match: null` with no calls. Otherwise the text is embedded first. The search is made iff the embedding returned a vector, and it is made with that vector and `top_k` (default 1). An accepted text gets an answer iff the search was made and returned rows (possibly null), and that answer is `Suggest.Decide` of those rows at `min_similarity` (default 0.8). Otherwise it gets an internal error. A proposed match comes from an accepted text, meets the threshold and has at most 300 characters of content. |
| Suggest.HandleErrors | backend/supabase/functions/suggest-similar/index.ts:64-77 | for an accepted text, the internal error carries the provider's own exception message, or "Failed to generate embedding" when no vector came back, or "match_documents failed: " followed by the search error's message. |
| Suggest.OnlyBestCandidateMatters | backend/supabase/functions/suggest-similar/index.ts:86 | candidates after the first never change the decision. |
| Suggest.ThresholdIsInclusive | backend/supabase/functions/suggest-similar/index.ts:88-93 | a best similarity exactly equal to the threshold is accepted. |
| Suggest.ThresholdMonotone | backend/supabase/functions/suggest-similar/index.ts:88 | raising the threshold never adds a suggestion, and lowering it never withdraws one. |
| Suggest.DefaultsApply | backend/supabase/functions/suggest-similar/index.ts:42-43 | with both options omitted, one candidate is requested, and a similarity below 0.8 gets no suggestion while 0.8 or above does. |
| Suggest.PaddingIgnored | backend/supabase/functions/suggest-similar/index.ts:46 | the length gate counts only what `trim()` keeps: whitespace around a draft never changes whether it is accepted. |
| Suggest.BlankTextIsRejected | backend/supabase/functions/suggest-similar/index.ts:46 | an all-whitespace text is never long enough, however long it is. |

The settling rules, referred to by `Worker.ProcessJobSettles`:
- **Success.** The row becomes `done` with `last_error` cleared and `attempts` kept.
- **Failure.** The report carries the message. The status is `error` iff the snapshot's attempts + 1 >= 3. If the failure write passes, the row stores attempts + 1, that status, and a prefix of the message of length min(1000, its length). If the failure write fails, the row stays as the processing mark left it.

The cases of `Batch.Run`:
- **A failed fetch** gives the fetch error, with the store unchanged.
- **No pending jobs** is reported iff the fetch passed and nothing is pending, with the store unchanged.
- **A passing fetch with pending jobs** always gives a report on the dequeued batch: its entries are in order, each is `done` iff that job's stages all passed and otherwise carries its thrown message, `processed` counts the `done` jobs, rows outside the batch are unchanged, and every batched job is settled.

## Left out

- HTTP plumbing is not modelled: request parsing, CORS preflight, the 405 answer, response status codes and JSON encoding. Each response is a datatype value instead.
- The optional `X-Worker-Secret` check (backend/supabase/functions/process-embedding-jobs/index.ts:38-46) is an authorisation guard in front of the core and is not modelled.
- The following are not modelled: `mustEnv`, client construction, and the outer `catch` that turns a configuration error into "Internal error" (backend/supabase/functions/process-embedding-jobs/index.ts:30-33,49-56,168-175 and backend/supabase/functions/suggest-similar/index.ts:11-14,53-62,105-113).
- The Supabase and OpenAI clients are not modelled. Their answers are parameters.
  - The provider's answer is given per job, not per input text, which is more general.
  - The provider's thrown message is an opaque string.
- Concurrency is not modelled: overlapping worker runs, and other writers touching the same rows between the query and the updates. Each job's updates apply to the row as the run finds it.
- Rows stuck in `processing` after a failed failure write are modelled as a reachable outcome. There is no recovery path for them in the code.
- Logging (`console.log` / `console.error`) has no effect on state and is left out.
- Some JavaScript coercions are not modelled:
  - `Number(...)` on `top_k` and `min_similarity`: the options are modelled as already numeric.
  - `NaN` comparisons.
  - The `typeof best.content` cases other than string or null.
- Strings are sequences of UTF-16 code units in the source. Here they are sequences of `char` (code points), so every length counts code points rather than code units. This affects the `trim().length < 10` gate, the 300-character content cut and the 1000-character error cut. For example, five emoji are 10 code units and pass the source's gate, but are 5 characters here and fail it. A `slice` that splits a surrogate pair is not distinguished either.
- Batch.BatchDoneEmbedded: states only that a `done` job's document ends the run with some embedding. When two jobs of one batch refer to the same document, it does not say whose vector is kept; `Worker.ProcessJobDocuments` gives the exact vector for each single iteration.
- The embedding dimension (1536 for `text-embedding-3-small`) and the model name are not checked by the code, and the model does not check them either.
- Embeddings are sequences of reals. Similarities are reals that are only compared.
- The other edge functions of the repository, answer-question and generate-embedding, are not part of this model.

=== FILE: batch.dfy ===
/** A whole run of the worker: the dequeue, the loop over the batch, and the report. */
module Batch {
  import opened Wrappers
  import opened Jobs
  import opened Queue
  import opened Worker

  function DocumentIds(batch: seq<Job>): set<DocumentId> {
    set j | j in batch :: j.documentId
  }

  /** How many report entries are `done`. */
  function CountDone(results: seq<Entry>): (n: nat)
    ensures n <= |results|
  {
    if results == [] then 0
    else (if results[0].status == Done then 1 else 0) + CountDone(results[1..])
  }

  /** Writing one embedding keeps every document's text, keeps stored embeddings, and leaves
      every other document as it was. */
  lemma WrittenKeepsDocuments(docs: Documents, job: Job, c: Calls, docs': Documents)
    requires docs' ==
      if EmbeddingStored(docs, job, c) then docs[job.documentId := docs[job.documentId].(embedding := c.embed.embedding)]
      else docs
    ensures DocumentsKept(docs, docs')
    ensures forall d | d in docs && d != job.documentId :: docs'[d] == docs[d]
  {
  }

  /** The worker's loop over `batch`, in order. A failing job never stops the loop: the
      report has one entry per job and `processed` counts the `done` entries. */
  function ProcessBatch(s: Store, batch: seq<Job>, env: JobId -> Calls): (p: Progress)
    requires forall i | 0 <= i < |batch| :: batch[i].id in s.jobs
    ensures |p.results| == |batch|
    ensures p.processed == CountDone(p.results)
    decreases |batch|
  {
    if batch == [] then Progress(s, 0, [], [])
    else
      var step := ProcessJob(s, batch[0], env(batch[0].id));
      var rest := ProcessBatch(step.store, batch[1..], env);
      var results := [step.entry] + rest.results;
      assert results[1..] == rest.results;
      Progress(rest.store, (if step.entry.status == Done then 1 else 0) + rest.processed, results,
        step.calls + rest.calls)
  }

  /** One step of the loop: the head job is processed against the current store, then the tail
      against the store that left, which still holds every tail job. */
  lemma BatchStep(s: Store, batch: seq<Job>, env: JobId -> Calls)
    requires batch != [] && forall i | 0 <= i < |batch| :: batch[i].id in s.jobs
    ensures forall i | 0 <= i < |batch[1..]| ::
      batch[1..][i].id in ProcessJob(s, batch[0], env(batch[0].id)).store.jobs
    ensures
      var step := ProcessJob(s, batch[0], env(batch[0].id));
      var rest := ProcessBatch(step.store, batch[1..], env);
      ProcessBatch(s, batch, env) ==
        Progress(rest.store, (if step.entry.status == Done then 1 else 0) + rest.processed,
                 [step.entry] + rest.results, step.calls + rest.calls)
  {
  }

  /** Entry `i` of the report is about the `i`-th dequeued job: the results keep dequeue order. */
  lemma {:induction false} BatchReportsInOrder(s: Store, batch: seq<Job>, env: JobId -> Calls)
    requires forall i | 0 <= i < |batch| :: batch[i].id in s.jobs
    ensures forall i | 0 <= i < |batch| :: ProcessBatch(s, batch, env).results[i].jobId == batch[i].id
    decreases |batch|
  {
    if batch != [] {
      var step := ProcessJob(s, batch[0], env(batch[0].id));
      BatchStep(s, batch, env);
      BatchReportsInOrder(step.store, batch[1..], env);
      var p := ProcessBatch(s, batch, env);
      var rest := ProcessBatch(step.store, batch[1..], env);
      assert p.results == [step.entry] + rest.results;
      forall i | 0 <= i < |batch| ensures p.results[i].jobId == batch[i].id {
        if i > 0 {
          assert p.results[i] == rest.results[i - 1] && batch[i] == batch[1..][i - 1];
        }
      }
    }
  }

  /** A run changes no job row outside the batch and adds or removes no row. */
  lemma {:induction false} BatchFrame(s: Store, batch: seq<Job>, env: JobId -> Calls)
    requires forall i | 0 <= i < |batch| :: batch[i].id in s.jobs
    ensures ProcessBatch(s, batch, env).store.jobs.Keys == s.jobs.Keys
    ensures forall k | k in s.jobs && k !in Ids(batch) :: ProcessBatch(s, batch, env).store.jobs[k] == s.jobs[k]
    decreases |batch|
  {
    if batch != [] {
      var step := ProcessJob(s, batch[0], env(batch[0].id));
      BatchStep(s, batch, env);
      BatchFrame(step.store, batch[1..], env);
      assert Ids(batch) == {batch[0].id} + Ids(batch[1..]) by {
        assert forall j | j in batch :: j == batch[0] || j in batch[1..];
      }
    }
  }

  lemma DocumentsKeptTransitive(a: Documents, b: Documents, c: Documents)
    requires DocumentsKept(a, b) && DocumentsKept(b, c)
    ensures DocumentsKept(a, c)
  {
  }

  /** Over a whole batch the worker only writes embeddings, and only to documents some job of
      the batch refers to. */
  lemma {:induction false} BatchDocuments(s: Store, batch: seq<Job>, env: JobId -> Calls)
    requires forall i | 0 <= i < |batch| :: batch[i].id in s.jobs
    ensures var p := ProcessBatch(s, batch, env);
      && DocumentsKept(s.documents, p.store.documents)
      && (forall d | d in s.documents && d !in DocumentIds(batch) :: p.store.documents[d] == s.documents[d])
    decreases |batch|
  {
    if batch != [] {
      var c := env(batch[0].id);
      var step := ProcessJob(s, batch[0], c);
      ProcessJobDocuments(s, batch[0], c);
      WrittenKeepsDocuments(s.documents, batch[0], c, step.store.documents);
      BatchStep(s, batch, env);
      BatchDocuments(step.store, batch[1..], env);
      var rest := ProcessBatch(step.store, batch[1..], env);
      DocumentsKeptTransitive(s.documents, step.store.documents, rest.store.documents);
      DocumentIdsCons(batch);
    }
  }

  /** The documents a batch refers to are its head's and its tail's. */
  lemma DocumentIdsCons(batch: seq<Job>)
    requires batch != []
    ensures DocumentIds(batch) == {batch[0].documentId} + DocumentIds(batch[1..])
  {
    assert forall j | j in batch :: j == batch[0] || j in batch[1..];
  }

  /** Every job reported `done` leaves its document with an embedding: later jobs may overwrite
      it but never remove it. */
  lemma {:induction false} BatchDoneEmbedded(s: Store, batch: seq<Job>, env: JobId -> Calls)
    requires forall i | 0 <= i < |batch| :: batch[i].id in s.jobs
    ensures var p := ProcessBatch(s, batch, env);
      forall i | 0 <= i < |batch| && p.results[i].status == Done ::
        batch[i].documentId in p.store.documents && p.store.documents[batch[i].documentId].embedding.Some?
    decreases |batch|
  {
    if batch != [] {
      var c := env(batch[0].id);
      var step := ProcessJob(s, batch[0], c);
      BatchStep(s, batch, env);
      var rest := ProcessBatch(step.store, batch[1..], env);
      var p := ProcessBatch(s, batch, env);
      if step.entry.status == Done {
        ProcessJobDocuments(s, batch[0], c);
        BatchDocuments(step.store, batch[1..], env);
      }
      BatchDoneEmbedded(step.store, batch[1..], env);
      forall i | 0 <= i < |batch| && p.results[i].status == Done
        ensures batch[i].documentId in p.store.documents && p.store.documents[batch[i].documentId].embedding.Some?
      {
        if i > 0 {
          assert p.results[i] == rest.results[i - 1] && batch[i] == batch[1..][i - 1];
        }
      }
    }
  }

  /** Each report entry says how its job fared against the documents the run started from:
      `done` exactly when every stage passed, and otherwise the message the try block threw.
      Earlier jobs only write embeddings, which no later job's outcome depends on. */
  lemma {:induction false} BatchOutcomes(s: Store, batch: seq<Job>, env: JobId -> Calls)
    requires forall i | 0 <= i < |batch| :: batch[i].id in s.jobs
    ensures var p := ProcessBatch(s, batch, env);
      forall i | 0 <= i < |batch| ::
        && (p.results[i].status == Done <==> HappyPath(s.documents, batch[i], env(batch[i].id)))
        && (p.results[i].status != Done ==>
              p.results[i].note == Some(Message(TryEmbed(s.documents, batch[i], env(batch[i].id)).failure.value)))
    decreases |batch|
  {
    if batch != [] {
      var c := env(batch[0].id);
      var step := ProcessJob(s, batch[0], c);
      ProcessJobSettles(s, batch[0], c);
      ProcessJobDocuments(s, batch[0], c);
      WrittenKeepsDocuments(s.documents, batch[0], c, step.store.documents);
      BatchStep(s, batch, env);
      BatchOutcomes(step.store, batch[1..], env);
      var rest := ProcessBatch(step.store, batch[1..], env);
      var p := ProcessBatch(s, batch, env);
      forall i | 0 <= i < |batch|
        ensures p.results[i].status == Done <==> HappyPath(s.documents, batch[i], env(batch[i].id))
        ensures p.results[i].status != Done ==>
          p.results[i].note == Some(Message(TryEmbed(s.documents, batch[i], env(batch[i].id)).failure.value))
      {
        if i > 0 {
          assert p.results[i] == rest.results[i - 1] && batch[i] == batch[1..][i - 1];
          KeptDocumentsSameOutcome(s.documents, step.store.documents, batch[i], env(batch[i].id));
        }
      }
    }
  }

  /** No job of `batch` that refers to document `d` gets as far as a passing embedding write. */
  predicate NoEmbeddingWrite(docs: Documents, batch: seq<Job>, env: JobId -> Calls, d: DocumentId) {
    forall i | 0 <= i < |batch| && batch[i].documentId == d :: !EmbeddingStored(docs, batch[i], env(batch[i].id))
  }

  /** A document none of whose jobs reaches a passing embedding write ends the run unchanged. */
  lemma {:induction false} BatchUnwrittenDocuments(s: Store, batch: seq<Job>, env: JobId -> Calls)
    requires forall i | 0 <= i < |batch| :: batch[i].id in s.jobs
    ensures var p := ProcessBatch(s, batch, env);
      forall d | d in s.documents && NoEmbeddingWrite(s.documents, batch, env, d) ::
        d in p.store.documents && p.store.documents[d] == s.documents[d]
    decreases |batch|
  {
    if batch != [] {
      var c := env(batch[0].id);
      var step := ProcessJob(s, batch[0], c);
      var tail := batch[1..];
      ProcessJobDocuments(s, batch[0], c);
      WrittenKeepsDocuments(s.documents, batch[0], c, step.store.documents);
      BatchStep(s, batch, env);
      BatchUnwrittenDocuments(step.store, tail, env);
      var p := ProcessBatch(s, batch, env);
      forall d | d in s.documents && NoEmbeddingWrite(s.documents, batch, env, d)
        ensures d in p.store.documents && p.store.documents[d] == s.documents[d]
      {
        forall i | 0 <= i < |tail| && tail[i].documentId == d
          ensures !EmbeddingStored(step.store.documents, tail[i], env(tail[i].id))
        {
          assert tail[i] == batch[i + 1];
          KeptDocumentsSameOutcome(s.documents, step.store.documents, tail[i], env(tail[i].id));
        }
        assert NoEmbeddingWrite(step.store.documents, tail, env, d);
      }
    }
  }

  /** Every provider call of a run is for non-blank text. */
  lemma {:induction false} BatchEmbedsOnlyText(s: Store, batch: seq<Job>, env: JobId -> Calls)
    requires forall i | 0 <= i < |batch| :: batch[i].id in s.jobs
    ensures EmbedsOnlyText(ProcessBatch(s, batch, env).calls)
    decreases |batch|
  {
    if batch != [] {
      var c := env(batch[0].id);
      var step := ProcessJob(s, batch[0], c);
      ProcessJobCalls(s, batch[0], c);
      BatchStep(s, batch, env);
      BatchEmbedsOnlyText(step.store, batch[1..], env);
      var rest := ProcessBatch(step.store, batch[1..], env);
      EmbedsAppend(s.documents, batch[0], step.calls, rest.calls);
    }
  }

  /** The batch as dequeued: distinct jobs, each the row currently stored under its id. */
  predicate Snapshot(s: Store, batch: seq<Job>) {
    && DistinctIds(batch)
    && forall i | 0 <= i < |batch| :: batch[i].id in s.jobs && s.jobs[batch[i].id] == batch[i]
  }

  /** Every job of the batch ends as `Settled` describes, because no later job touches its row. */
  lemma {:induction false} BatchSettles(s: Store, batch: seq<Job>, env: JobId -> Calls)
    requires Snapshot(s, batch)
    ensures var p := ProcessBatch(s, batch, env);
      forall i | 0 <= i < |batch| ::
        batch[i].id in p.store.jobs
        && Settled(batch[i], batch[i], p.results[i], env(batch[i].id), p.store.jobs[batch[i].id])
    decreases |batch|
  {
    if batch != [] {
      var c := env(batch[0].id);
      var step := ProcessJob(s, batch[0], c);
      ProcessJobSettles(s, batch[0], c);
      var tail := batch[1..];
      assert Snapshot(step.store, tail) by {
        forall i | 0 <= i < |tail| ensures tail[i].id in step.store.jobs && step.store.jobs[tail[i].id] == tail[i] {
          assert tail[i] == batch[i + 1];
        }
      }
      BatchSettles(step.store, tail, env);
      BatchFrame(step.store, tail, env);
      BatchFrame(s, batch, env);
      assert batch[0].id !in Ids(tail);
      var rest := ProcessBatch(step.store, tail, env);
      var p := ProcessBatch(s, batch, env);
      assert p.store == rest.store && p.results == [step.entry] + rest.results;
      forall i | 0 <= i < |batch|
        ensures batch[i].id in p.store.jobs
        ensures Settled(batch[i], batch[i], p.results[i], env(batch[i].id), p.store.jobs[batch[i].id])
      {
        if i > 0 {
          assert p.results[i] == rest.results[i - 1] && batch[i] == tail[i - 1];
        }
      }
    }
  }

  /** A settled row keeps its identity: only status, attempts and last error are ever written. */
  lemma SettledKeepsIdentity(row: Job, job: Job, e: Entry, c: Calls, after: Job)
    requires Settled(row, job, e, c, after)
    ensures after.id == row.id && after.documentId == row.documentId && after.createdAt == row.createdAt
  {
  }

  /** Settling a pending job that satisfies the state-machine invariant keeps it. */
  lemma SettledKeepsInvariant(job: Job, e: Entry, c: Calls, after: Job)
    requires JobInvariant(job) && job.status == Pending
    requires Settled(job, job, e, c, after)
    ensures JobInvariant(after)
  {
  }

  /** Processing a dequeued batch keeps the store's invariant and its well-formedness. */
  lemma BatchKeepsInvariant(s: Store, batch: seq<Job>, env: JobId -> Calls)
    requires Snapshot(s, batch)
    requires forall i | 0 <= i < |batch| :: batch[i].status == Pending
    ensures WellFormed(s) ==> WellFormed(ProcessBatch(s, batch, env).store)
    ensures StoreInvariant(s) ==> StoreInvariant(ProcessBatch(s, batch, env).store)
  {
    var p := ProcessBatch(s, batch, env);
    BatchSettles(s, batch, env);
    BatchFrame(s, batch, env);
    forall k | k in p.store.jobs && k in Ids(batch)
      ensures p.store.jobs[k].id == s.jobs[k].id
      ensures JobInvariant(s.jobs[k]) ==> JobInvariant(p.store.jobs[k])
    {
      var j :| j in batch && j.id == k;
      var i :| 0 <= i < |batch| && batch[i] == j;
      SettledKeepsIdentity(batch[i], batch[i], p.results[i], env(k), p.store.jobs[k]);
      if JobInvariant(s.jobs[k]) {
        SettledKeepsInvariant(batch[i], p.results[i], env(k), p.store.jobs[k]);
      }
    }
  }

  /** One invocation of the worker: fetch the batch, stop on a failed fetch or an
      empty batch without touching anything, otherwise process every job and report. */
  method Run(s: Store, fetch: Outcome, env: JobId -> Calls) returns (out: RunOutcome, s': Store, batch: seq<Job>)
    requires WellFormed(s)
    ensures fetch.Fail? ==> out == FetchFailed && s' == s && batch == []
    ensures out.FetchFailed? <==> fetch.Fail?
    ensures fetch.Pass? && PendingIds(s.jobs) != {} ==> out.Completed?
    ensures fetch.Pass? ==> IsDequeue(s.jobs, batch)
    ensures out.NoPendingJobs? <==> fetch.Pass? && PendingIds(s.jobs) == {}
    ensures out.NoPendingJobs? ==> s' == s
    ensures out.Completed? ==>
      && out.report.batch == |batch|
      && 1 <= |batch| <= BATCH_SIZE
      && |out.report.results| == |batch|
      && (forall i | 0 <= i < |batch| :: out.report.results[i].jobId == batch[i].id)
      && out.report.processed == CountDone(out.report.results)
      && out.report.processed <= out.report.batch
    ensures out.Completed? ==>
      forall k | k in s.jobs && k !in Ids(batch) :: k in s'.jobs && s'.jobs[k] == s.jobs[k]
    ensures out.Completed? ==>
      forall i | 0 <= i < |batch| ::
        batch[i].id in s'.jobs
        && Settled(batch[i], batch[i], out.report.results[i], env(batch[i].id), s'.jobs[batch[i].id])
    ensures out.Completed? ==>
      forall d | d in s.documents && d !in DocumentIds(batch) :: d in s'.documents && s'.documents[d] == s.documents[d]
    ensures out.Completed? ==>
      forall i | 0 <= i < |batch| ::
        && (out.report.results[i].status == Done <==> HappyPath(s.documents, batch[i], env(batch[i].id)))
        && (out.report.results[i].status != Done ==>
              out.report.results[i].note == Some(Message(TryEmbed(s.documents, batch[i], env(batch[i].id)).failure.value)))
    ensures out.Completed? ==>
      forall d | d in s.documents && NoEmbeddingWrite(s.documents, batch, env, d) ::
        d in s'.documents && s'.documents[d] == s.documents[d]
    ensures out.Completed? ==>
      forall i | 0 <= i < |batch| && out.report.results[i].status == Done ::
        batch[i].documentId in s'.documents && s'.documents[batch[i].documentId].embedding.Some?
    ensures WellFormed(s')
    ensures StoreInvariant(s) ==> StoreInvariant(s')
    ensures DocumentsKept(s.documents, s'.documents)
  {
    if fetch.Fail? {
      return FetchFailed, s, [];
    }
    batch := Dequeue(s.jobs);
    if batch == [] {
      return NoPendingJobs, s, batch;
    }
    var p := ProcessBatch(s, batch, env);
    BatchReportsInOrder(s, batch, env);
    BatchFrame(s, batch, env);
    BatchDocuments(s, batch, env);
    BatchDoneEmbedded(s, batch, env);
    BatchOutcomes(s, batch, env);
    BatchUnwrittenDocuments(s, batch, env);
    BatchSettles(s, batch, env);
    BatchKeepsInvariant(s, batch, env);
    out := Completed(Report(p.processed, |batch|, p.results));
    s' := p.store;
  }
}

=== FILE: jobs.dfy ===
/** Rows of the `document_embedding_jobs` and `documents` tables, the worker's constants, and the
    state-machine rules a job row obeys between runs. */
module Jobs {
  import opened Wrappers
  import opened Text

  /** A job whose attempt count reaches this after a failure becomes `error`. */
  const MAX_ATTEMPTS: int := 3
  /** How many pending jobs one run takes. */
  const BATCH_SIZE: nat := 5
  /** How much of a failure message is persisted in `last_error`. */
  const MAX_ERROR_LENGTH: nat := 1000

  type JobId = string
  type DocumentId = string
  /** An embedding vector; its dimension is never checked by the worker. */
  type Embedding = seq<real>

  datatype Status = Pending | Processing | Done | Error

  /** A job row. `attempts` may be null in the table; the worker reads it as 0. */
  datatype Job = Job(
    id: JobId,
    documentId: DocumentId,
    status: Status,
    attempts: Option<int>,
    lastError: Option<string>,
    createdAt: int)

  /** A document row: its (nullable) text and the embedding the worker writes. */
  datatype Document = Document(content: Option<string>, embedding: Option<Embedding>)

  type Documents = map<DocumentId, Document>

  /** The two tables, keyed by primary key. */
  datatype Store = Store(jobs: map<JobId, Job>, documents: Documents)

  /** Every job row is stored under its own id. */
  predicate WellFormed(s: Store) {
    forall k | k in s.jobs :: s.jobs[k].id == k
  }

  /** The ids of the jobs a query for `status = pending` returns. */
  function PendingIds(jobs: map<JobId, Job>): set<JobId> {
    set k | k in jobs && jobs[k].status == Pending
  }

  function Ids(batch: seq<Job>): set<JobId> {
    set j | j in batch :: j.id
  }

  predicate DistinctIds(batch: seq<Job>) {
    forall i, j | 0 <= i < j < |batch| :: batch[i].id != batch[j].id
  }

  /** Content the worker refuses to embed: null, or nothing but whitespace (see `BlankIsTrimmedEmpty`). */
  predicate IsBlank(content: Option<string>) {
    content.None? || AllWhitespace(content.value)
  }

  /** The worker's emptiness test on a document's content: it is blank exactly when it is null or `trim()` leaves nothing of it. */
  lemma BlankIsTrimmedEmpty(content: Option<string>)
    ensures IsBlank(content) <==> content.None? || |Trim(content.value)| == 0
  {
  }

  /** The attempt count a failure records: one more than the stored count, null read as 0. */
  function NextAttempts(job: Job): int {
    job.attempts.GetOr(0) + 1
  }

  /** The status a failure records for the attempt count `next`. */
  function FailureStatus(next: int): Status {
    if next >= MAX_ATTEMPTS then Error else Pending
  }

  /** The row after the success write, which sets `status` and clears `last_error` only. */
  function DoneRow(row: Job): (r: Job)
    ensures r.status == Done && r.lastError.None?
    ensures r.(status := row.status, lastError := row.lastError) == row
    ensures row.attempts.GetOr(0) >= 0 ==> JobInvariant(r)
  {
    row.(status := Done, lastError := None)
  }

  /** The row after the failure write, whose count comes from the dequeued snapshot `job`. */
  function FailedRow(row: Job, job: Job, message: string): (r: Job)
    ensures r.attempts == Some(job.attempts.GetOr(0) + 1)
    ensures r.status == Error <==> job.attempts.GetOr(0) + 1 >= MAX_ATTEMPTS
    ensures r.status == Pending <==> job.attempts.GetOr(0) + 1 < MAX_ATTEMPTS
    ensures r.lastError.Some? && r.lastError.value <= message
    ensures |r.lastError.value| == Min(MAX_ERROR_LENGTH, |message|)
    ensures r.(attempts := row.attempts, lastError := row.lastError, status := row.status) == row
  {
    row.(attempts := Some(NextAttempts(job)),
         lastError := Some(Take(message, MAX_ERROR_LENGTH)),
         status := FailureStatus(NextAttempts(job)))
  }

  /** What the state machine keeps true of every job row between runs. */
  predicate JobInvariant(j: Job) {
    && j.attempts.GetOr(0) >= 0
    && (j.status == Pending ==> j.attempts.GetOr(0) < MAX_ATTEMPTS)
    && (j.status == Error ==>
          j.attempts == Some(MAX_ATTEMPTS)
          && j.lastError.Some? && |j.lastError.value| <= MAX_ERROR_LENGTH)
    && (j.status == Done ==> j.lastError.None?)
  }

  predicate StoreInvariant(s: Store) {
    forall k | k in s.jobs :: JobInvariant(s.jobs[k])
  }

  /** A pending job's row after a failure keeps the invariant: the count rises by exactly one,
      it becomes `error` exactly when the budget is spent, and the stored message is bounded. */
  lemma FailedRowKeepsInvariant(job: Job, message: string)
    requires JobInvariant(job) && job.status == Pending
    ensures var r := FailedRow(job, job, message);
      && JobInvariant(r)
      && r.attempts == Some(job.attempts.GetOr(0) + 1)
      && (r.status == Error <==> job.attempts.GetOr(0) + 1 == MAX_ATTEMPTS)
      && (r.status == Pending <==> job.attempts.GetOr(0) + 1 < MAX_ATTEMPTS)
      && r.lastError.value <= message
      && |r.lastError.value| == Min(MAX_ERROR_LENGTH, |message|)
  {
  }

  /** `n` consecutive failed runs of one job, each re-reading the row the previous one wrote. */
  function FailRuns(job: Job, n: nat, message: string): Job {
    if n == 0 then job else
    var prev := FailRuns(job, n - 1, message);
    FailedRow(prev, prev, message)
  }

  /** The retry budget: starting from a pending row with `a` attempts, each of the next
      `MAX_ATTEMPTS - a` failures adds one attempt; all but the last requeue the job, and the
      last one makes it terminal with exactly `MAX_ATTEMPTS` attempts. */
  lemma {:induction false} RetryBudget(job: Job, n: nat, message: string)
    requires JobInvariant(job) && job.status == Pending
    requires 1 <= n <= MAX_ATTEMPTS - job.attempts.GetOr(0)
    ensures FailRuns(job, n, message).attempts == Some(job.attempts.GetOr(0) + n)
    ensures FailRuns(job, n, message).status == Error <==> n == MAX_ATTEMPTS - job.attempts.GetOr(0)
    ensures JobInvariant(FailRuns(job, n, message))
  {
    if n == 1 {
      FailedRowKeepsInvariant(job, message);
    } else {
      RetryBudget(job, n - 1, message);
      var prev := FailRuns(job, n - 1, message);
      FailedRowKeepsInvariant(prev, message);
    }
  }
}

=== FILE: queue.dfy ===
/** The dequeue query: pending jobs, oldest `created_at` first, at most `BATCH_SIZE` of them. */
module Queue {
  import opened Wrappers
  import opened Jobs

  /** What any answer to the query satisfies. Rows with equal `created_at` may come back in
      either order, so this describes every admissible batch rather than one. */
  predicate IsDequeue(jobs: map<JobId, Job>, batch: seq<Job>) {
    && (forall i | 0 <= i < |batch| ::
          batch[i].id in jobs && jobs[batch[i].id] == batch[i] && batch[i].status == Pending)
    && DistinctIds(batch)
    && (forall i, j | 0 <= i < j < |batch| :: batch[i].createdAt <= batch[j].createdAt)
    && |batch| == Min(BATCH_SIZE, |PendingIds(jobs)|)
    && (forall k, i | k in PendingIds(jobs) - Ids(batch) && 0 <= i < |batch| ::
          batch[i].createdAt <= jobs[k].createdAt)
  }

  /** A non-empty set of stored jobs has an oldest member. */
  lemma {:induction false} OldestExists(jobs: map<JobId, Job>, candidates: set<JobId>)
    requires candidates != {} && candidates <= jobs.Keys
    ensures exists k :: k in candidates && forall k' | k' in candidates :: jobs[k].createdAt <= jobs[k'].createdAt
    decreases candidates
  {
    var x :| x in candidates;
    var others := candidates - {x};
    if others != {} {
      OldestExists(jobs, others);
      var m :| m in others && forall k' | k' in others :: jobs[m].createdAt <= jobs[k'].createdAt;
      if jobs[x].createdAt < jobs[m].createdAt {
        assert forall k' | k' in candidates :: jobs[x].createdAt <= jobs[k'].createdAt;
      } else {
        assert forall k' | k' in candidates :: jobs[m].createdAt <= jobs[k'].createdAt;
      }
    } else {
      assert candidates == {x};
    }
  }

  /** `batch` and `rest` split the pending jobs between them. */
  predicate Splits(jobs: map<JobId, Job>, batch: seq<Job>, rest: set<JobId>) {
    && rest <= PendingIds(jobs)
    && (forall i | 0 <= i < |batch| ::
          batch[i].id in jobs && jobs[batch[i].id] == batch[i] && batch[i].status == Pending)
    && Ids(batch) !! rest
    && Ids(batch) + rest == PendingIds(jobs)
    && |batch| + |rest| == |PendingIds(jobs)|
  }

  /** `batch` is duplicate-free, oldest first, and no job left in `rest` is older. */
  predicate Ordered(jobs: map<JobId, Job>, batch: seq<Job>, rest: set<JobId>)
    requires rest <= jobs.Keys
  {
    && DistinctIds(batch)
    && (forall i, j | 0 <= i < j < |batch| :: batch[i].createdAt <= batch[j].createdAt)
    && (forall k, i | k in rest && 0 <= i < |batch| :: batch[i].createdAt <= jobs[k].createdAt)
  }

  /** The loop state of `Dequeue`: `batch` is a sorted, duplicate-free run of the oldest pending
      jobs and `rest` holds exactly the pending jobs not yet taken. */
  predicate Selecting(jobs: map<JobId, Job>, batch: seq<Job>, rest: set<JobId>) {
    Splits(jobs, batch, rest) && Ordered(jobs, batch, rest)
  }

  lemma SelectOldestSplits(jobs: map<JobId, Job>, batch: seq<Job>, rest: set<JobId>, k: JobId)
    requires forall k' | k' in jobs :: jobs[k'].id == k'
    requires Splits(jobs, batch, rest) && k in rest
    ensures Splits(jobs, batch + [jobs[k]], rest - {k})
  {
    var b := batch + [jobs[k]];
    var r := rest - {k};
    assert k in PendingIds(jobs) && jobs[k].id == k;
    forall i | 0 <= i < |b| ensures b[i].id in jobs && jobs[b[i].id] == b[i] && b[i].status == Pending {
      if i < |batch| {
        assert b[i] == batch[i];
      } else {
        assert b[i] == jobs[k];
      }
    }
    IdsAppend(batch, jobs[k]);
    assert |r| == |rest| - 1;
    assert Ids(b) + r == PendingIds(jobs);
  }

  lemma IdsAppend(batch: seq<Job>, j: Job)
    ensures Ids(batch + [j]) == Ids(batch) + {j.id}
  {
    assert forall x | x in batch + [j] :: x in batch || x == j;
  }

  lemma SelectOldestOrdered(jobs: map<JobId, Job>, batch: seq<Job>, rest: set<JobId>, k: JobId)
    requires forall k' | k' in jobs :: jobs[k'].id == k'
    requires Splits(jobs, batch, rest) && Ordered(jobs, batch, rest)
    requires k in rest && forall k' | k' in rest :: jobs[k].createdAt <= jobs[k'].createdAt
    ensures Ordered(jobs, batch + [jobs[k]], rest - {k})
  {
    var b := batch + [jobs[k]];
    assert forall i | 0 <= i < |batch| :: batch[i].id in Ids(batch);
    assert DistinctIds(b) by {
      forall i, j | 0 <= i < j < |b| ensures b[i].id != b[j].id {
        if j == |batch| {
          assert b[i] in batch;
        }
      }
    }
    forall i, j | 0 <= i < j < |b| ensures b[i].createdAt <= b[j].createdAt {
      if j < |batch| {
        assert b[i] == batch[i] && b[j] == batch[j];
      } else {
        assert b[i] == batch[i] && b[j] == jobs[k];
      }
    }
  }

  /** Runs the pending-jobs query (status `pending`, oldest `created_at` first, at most `BATCH_SIZE` rows) against the jobs table. */
  method Dequeue(jobs: map<JobId, Job>) returns (batch: seq<Job>)
    requires forall k | k in jobs :: jobs[k].id == k
    ensures IsDequeue(jobs, batch)
    ensures |batch| <= BATCH_SIZE
    ensures batch == [] <==> PendingIds(jobs) == {}
  {
    batch := [];
    var rest := PendingIds(jobs);
    while |batch| < BATCH_SIZE && rest != {}
      invariant Selecting(jobs, batch, rest)
      invariant |batch| <= BATCH_SIZE
      decreases rest
    {
      OldestExists(jobs, rest);
      var k :| k in rest && forall k' | k' in rest :: jobs[k].createdAt <= jobs[k'].createdAt;
      SelectOldestSplits(jobs, batch, rest, k);
      SelectOldestOrdered(jobs, batch, rest, k);
      batch := batch + [jobs[k]];
      rest := rest - {k};
    }
    SelectionDone(jobs, batch, rest);
  }

  /** A selection that is full or has nothing left to take answers the query. */
  lemma SelectionDone(jobs: map<JobId, Job>, batch: seq<Job>, rest: set<JobId>)
    requires Selecting(jobs, batch, rest)
    requires |batch| <= BATCH_SIZE && (|batch| == BATCH_SIZE || rest == {})
    ensures IsDequeue(jobs, batch)
    ensures batch == [] <==> PendingIds(jobs) == {}
  {
    assert PendingIds(jobs) - Ids(batch) == rest;
    if batch == [] {
      assert Ids(batch) == {};
    }
  }

  /** A batch without repeated ids names as many jobs as it has entries. */
  lemma {:induction false} DistinctIdsCount(batch: seq<Job>)
    requires DistinctIds(batch)
    ensures |Ids(batch)| == |batch|
  {
    if batch != [] {
      var tail := batch[1..];
      assert DistinctIds(tail);
      DistinctIdsCount(tail);
      assert Ids(batch) == {batch[0].id} + Ids(tail) by {
        assert forall j | j in batch :: j == batch[0] || j in tail;
      }
      assert batch[0].id !in Ids(tail);
    }
  }

  /** The pending jobs a run leaves for later: all but the batch, e.g. 3 of 8. */
  lemma DequeueLeavesRest(jobs: map<JobId, Job>, batch: seq<Job>)
    requires IsDequeue(jobs, batch)
    ensures Ids(batch) <= PendingIds(jobs)
    ensures |PendingIds(jobs) - Ids(batch)| == |PendingIds(jobs)| - |batch|
    ensures |PendingIds(jobs)| > BATCH_SIZE ==> |PendingIds(jobs) - Ids(batch)| == |PendingIds(jobs)| - BATCH_SIZE
  {
    DistinctIdsCount(batch);
    assert forall j | j in batch :: j.id in PendingIds(jobs);
  }

  /** First in, first out: a pending job strictly older than a batched one is in the batch, ahead
      of it. */
  lemma OlderJobsFirst(jobs: map<JobId, Job>, batch: seq<Job>, i: nat, k: JobId)
    requires IsDequeue(jobs, batch)
    requires i < |batch| && k in PendingIds(jobs) && jobs[k].createdAt < batch[i].createdAt
    ensures k in Ids(batch)
    ensures forall j | 0 <= j < |batch| && batch[j].id == k :: j < i
  {
  }
}

=== FILE: suggest.dfy ===
/** The duplicate-suggestion handler: given a draft text, ask for its embedding, search for the
    most similar stored note, and propose it when it is similar enough. Similarities are only
    compared, so they are modelled as reals. */
module Suggest {
  import opened Wrappers
  import opened Text

  /** Drafts whose trimmed text is shorter than this get no suggestion. */
  const MIN_TEXT_LENGTH: nat := 10
  /** How much of the suggested note's content is returned. */
  const MAX_CONTENT_LENGTH: nat := 300
  /** `top_k` when the request omits it. */
  const DEFAULT_TOP_K: int := 1
  /** `min_similarity` when the request omits it. */
  const DEFAULT_MIN_SIMILARITY: real := 0.8

  /** The request body's `text` field: absent, present but not a string, or a string. */
  datatype TextField = Missing | NotString | Given(text: string)

  datatype Request = Request(text: TextField, topK: Option<int>, minSimilarity: Option<real>)

  /** A row returned by the similarity search, best first. */
  datatype Candidate = Candidate(id: string, similarity: real, content: Option<string>)

  /** The `match` object of a response. */
  datatype Suggestion = Suggestion(id: string, similarity: real, content: string)

  /** The embedding provider either throws or answers, possibly without an embedding. */
  datatype EmbedReply = EmbedThrew(message: string) | Embedded(embedding: Option<seq<real>>)

  /** The search either reports an error or returns a (possibly null) list of candidates. */
  datatype SearchReply = SearchFailed(message: string) | Found(matches: Option<seq<Candidate>>)

  /** A collaborator call the handler made. */
  datatype Call = EmbedQuery(text: string) | SearchDocuments(embedding: seq<real>, count: int)

  /** The handler's answer: a (possibly null) match, or an internal error with its detail. */
  datatype Reply = Answered(suggestion: Option<Suggestion>) | Failed(detail: string)

  datatype Handled = Handled(reply: Reply, calls: seq<Call>)

  /** The handler's length gate: a string whose trimmed length is at least `MIN_TEXT_LENGTH`. */
  predicate LongEnough(field: TextField) {
    field.Given? && |Trim(field.text)| >= MIN_TEXT_LENGTH
  }

  /** Look only at the best candidate and propose it, with its content cut to
      `MAX_CONTENT_LENGTH` characters, when its similarity is at least `minSimilarity`. */
  function Decide(matches: Option<seq<Candidate>>, minSimilarity: real): (r: Option<Suggestion>)
    ensures r.Some? <==> matches.Some? && |matches.value| > 0 && matches.value[0].similarity >= minSimilarity
    ensures r.Some? ==>
      var best := matches.value[0];
      && r.value.id == best.id
      && r.value.similarity == best.similarity
      && r.value.content <= best.content.GetOr("")
      && |r.value.content| == Min(MAX_CONTENT_LENGTH, |best.content.GetOr("")|)
  {
    if matches.None? || |matches.value| == 0 then None
    else
      var best := matches.value[0];
      if best.similarity < minSimilarity then None
      else Some(Suggestion(best.id, best.similarity, Take(best.content.GetOr(""), MAX_CONTENT_LENGTH)))
  }

  /** The handler body for a POST request: the length gate, the embedding, the search and the decision. */
  function Handle(req: Request, embed: string -> EmbedReply, search: (seq<real>, int) -> SearchReply): (h: Handled)
    ensures !LongEnough(req.text) ==> h == Handled(Answered(None), [])
    ensures LongEnough(req.text) ==> |h.calls| >= 1 && h.calls[0] == EmbedQuery(req.text.text)
    ensures |h.calls| <= 2
    ensures |h.calls| == 2 <==>
      LongEnough(req.text) && embed(req.text.text).Embedded? && embed(req.text.text).embedding.Some?
    ensures |h.calls| == 2 ==>
      h.calls[1] == SearchDocuments(embed(req.text.text).embedding.value, req.topK.GetOr(DEFAULT_TOP_K))
    ensures LongEnough(req.text) ==>
      (h.reply.Answered? <==> |h.calls| == 2 && search(h.calls[1].embedding, h.calls[1].count).Found?)
    ensures h.reply.Answered? && |h.calls| == 2 ==>
      h.reply.suggestion ==
        Decide(search(h.calls[1].embedding, h.calls[1].count).matches, req.minSimilarity.GetOr(DEFAULT_MIN_SIMILARITY))
    ensures h.reply.Answered? && h.reply.suggestion.Some? ==>
      && LongEnough(req.text)
      && h.reply.suggestion.value.similarity >= req.minSimilarity.GetOr(DEFAULT_MIN_SIMILARITY)
      && |h.reply.suggestion.value.content| <= MAX_CONTENT_LENGTH
  {
    if !LongEnough(req.text) then Handled(Answered(None), [])
    else
      var text := req.text.text;
      var topK := req.topK.GetOr(DEFAULT_TOP_K);
      var minSimilarity := req.minSimilarity.GetOr(DEFAULT_MIN_SIMILARITY);
      match embed(text)
      case EmbedThrew(message) => Handled(Failed(message), [EmbedQuery(text)])
      case Embedded(None) => Handled(Failed("Failed to generate embedding"), [EmbedQuery(text)])
      case Embedded(Some(v)) =>
        var calls := [EmbedQuery(text), SearchDocuments(v, topK)];
        match search(v, topK)
        case SearchFailed(message) => Handled(Failed("match_documents failed: " + message), calls)
        case Found(matches) => Handled(Answered(Decide(matches, minSimilarity)), calls)
  }

  /** Only the first candidate matters: candidates after it never change the decision. */
  lemma OnlyBestCandidateMatters(best: Candidate, others: seq<Candidate>, others': seq<Candidate>, minSimilarity: real)
    ensures Decide(Some([best] + others), minSimilarity) == Decide(Some([best] + others'), minSimilarity)
  {
  }

  /** The threshold is inclusive: a best candidate exactly at `minSimilarity` is proposed. */
  lemma ThresholdIsInclusive(best: Candidate, others: seq<Candidate>)
    ensures Decide(Some([best] + others), best.similarity).Some?
  {
  }

  /** Lowering the threshold never withdraws a suggestion, and raising it never adds one. */
  lemma ThresholdMonotone(matches: Option<seq<Candidate>>, lower: real, higher: real)
    requires lower <= higher
    ensures Decide(matches, higher).Some? ==> Decide(matches, lower) == Decide(matches, higher)
  {
  }

  /** With `top_k` and `min_similarity` omitted, one candidate is requested and a similarity of
      0.8 is enough while anything below it is not. */
  lemma DefaultsApply(text: string, embed: string -> EmbedReply, search: (seq<real>, int) -> SearchReply, best: Candidate)
    requires LongEnough(Given(text))
    requires embed(text).Embedded? && embed(text).embedding.Some?
    requires search(embed(text).embedding.value, 1) == Found(Some([best]))
    ensures var h := Handle(Request(Given(text), None, None), embed, search);
      && h.calls == [EmbedQuery(text), SearchDocuments(embed(text).embedding.value, 1)]
      && (h.reply == Answered(None) <==> best.similarity < 0.8)
  {
  }

  /** The three ways an accepted text ends in an internal error, each with the detail the
      response carries: the provider's own exception, a reply without a vector, and a failed
      search, whose message is prefixed. */
  lemma HandleErrors(req: Request, embed: string -> EmbedReply, search: (seq<real>, int) -> SearchReply)
    requires LongEnough(req.text)
    ensures var h := Handle(req, embed, search);
      var e := embed(req.text.text);
      && (e.EmbedThrew? ==> h.reply == Failed(e.message))
      && (e == Embedded(None) ==> h.reply == Failed("Failed to generate embedding"))
      && (e.Embedded? && e.embedding.Some? && search(e.embedding.value, req.topK.GetOr(DEFAULT_TOP_K)).SearchFailed? ==>
            h.reply == Failed("match_documents failed: " + search(e.embedding.value, req.topK.GetOr(DEFAULT_TOP_K)).message))
  {
  }

  /** The gate counts only what `trim()` keeps: whitespace around a draft never changes whether it
      is accepted. */
  lemma PaddingIgnored(text: string, a: string, b: string)
    requires AllWhitespace(a) && AllWhitespace(b)
    ensures LongEnough(Given(a + text + b)) <==> LongEnough(Given(text))
  {
    TrimPadded(text, a, b);
  }

  /** A text that is blank after trimming is never long enough, however long it is. */
  lemma BlankTextIsRejected(text: string)
    requires AllWhitespace(text)
    ensures !LongEnough(Given(text))
  {
  }
}

=== FILE: text.dfy ===
/** The two string operations both handlers rely on: JavaScript's `trim()` and `slice(0, n)`. */
module Text {
  import opened Wrappers

  /** The code points `trim()` removes, ECMAScript's WhiteSpace and LineTerminator classes, as
      inclusive ranges: tab to carriage return, space, no-break space, ogham space mark, en quad
      to hair space, line and paragraph separators, narrow no-break space, medium mathematical
      space, ideographic space and the byte order mark. */
  const WHITESPACE_RANGES: nat := 10

  function WhitespaceRange(i: nat): (r: (char, char))
    requires i < WHITESPACE_RANGES
  {
    if i == 0 then ('\t', '\r')
    else if i == 1 then (' ', ' ')
    else if i == 2 then ('\U{00A0}', '\U{00A0}')
    else if i == 3 then ('\U{1680}', '\U{1680}')
    else if i == 4 then ('\U{2000}', '\U{200A}')
    else if i == 5 then ('\U{2028}', '\U{2029}')
    else if i == 6 then ('\U{202F}', '\U{202F}')
    else if i == 7 then ('\U{205F}', '\U{205F}')
    else if i == 8 then ('\U{3000}', '\U{3000}')
    else ('\U{FEFF}', '\U{FEFF}')
  }

  /** `c` lies in one of the ranges from the `i`-th on. */
  predicate InWhitespaceRanges(c: char, i: nat)
    decreases WHITESPACE_RANGES - i
  {
    i < WHITESPACE_RANGES && (WhitespaceRange(i).0 <= c <= WhitespaceRange(i).1 || InWhitespaceRanges(c, i + 1))
  }

  predicate IsWhitespace(c: char) {
    InWhitespaceRanges(c, 0)
  }

  /** Members and non-members of the class: the whole en quad to hair space range is whitespace,
      while ASCII letters and digits, the zero-width space and NEL are not. */
  lemma WhitespaceClass()
    ensures IsWhitespace(' ') && IsWhitespace('\t') && IsWhitespace('\n') && IsWhitespace('\U{00A0}')
    ensures IsWhitespace('\U{2005}') && IsWhitespace('\U{2029}') && IsWhitespace('\U{FEFF}')
    ensures !IsWhitespace('a') && !IsWhitespace('\U{200B}') && !IsWhitespace('\U{0085}')
    ensures forall c | '\U{2000}' <= c <= '\U{200A}' :: IsWhitespace(c)
    ensures forall c | 'a' <= c <= 'z' || 'A' <= c <= 'Z' || '0' <= c <= '9' :: !IsWhitespace(c)
  {
  }

  predicate AllWhitespace(s: string) {
    forall i | 0 <= i < |s| :: IsWhitespace(s[i])
  }

  /** `s` without its leading whitespace: a suffix of `s` whose dropped part is all whitespace. */
  function TrimStart(s: string): (r: string)
    ensures |r| <= |s| && r == s[|s| - |r|..]
    ensures AllWhitespace(s[..|s| - |r|])
    ensures r == [] || !IsWhitespace(r[0])
  {
    if s != [] && IsWhitespace(s[0]) then
      var r := TrimStart(s[1..]);
      assert s[..|s| - |r|] == [s[0]] + s[1..][..|s| - 1 - |r|];
      r
    else
      s
  }

  /** `s` without its trailing whitespace: a prefix of `s` whose dropped part is all whitespace. */
  function TrimEnd(s: string): (r: string)
    ensures |r| <= |s| && r == s[..|r|]
    ensures AllWhitespace(s[|r|..])
    ensures r == [] || !IsWhitespace(r[|r| - 1])
  {
    if s != [] && IsWhitespace(s[|s| - 1]) then
      var r := TrimEnd(s[..|s| - 1]);
      assert s[|r|..] == s[..|s| - 1][|r|..] + [s[|s| - 1]];
      r
    else
      s
  }

  /** `s` is whitespace up to `n`, then `r`, then whitespace to its end. */
  predicate Framed(s: string, n: nat, r: string) {
    && n + |r| <= |s|
    && AllWhitespace(s[..n])
    && s[n..n + |r|] == r
    && AllWhitespace(s[n + |r|..])
  }

  /** JavaScript's `s.trim()`: what is left between the leading and the trailing whitespace. */
  function Trim(s: string): (r: string)
    ensures |r| <= |s|
    ensures Framed(s, |s| - |TrimStart(s)|, r)
    ensures r == [] || (!IsWhitespace(r[0]) && !IsWhitespace(r[|r| - 1]))
    ensures r == [] <==> AllWhitespace(s)
  {
    var t := TrimStart(s);
    var r := TrimEnd(t);
    FrameJoin(s, t, r);
    assert r == [] || r[0] == t[0];
    FramedBlank(s, |s| - |t|, r);
    r
  }

  /** Cutting whitespace off the front and then off the back frames what is left. */
  lemma {:induction false} FrameJoin(s: string, t: string, r: string)
    requires |t| <= |s| && t == s[|s| - |t|..] && AllWhitespace(s[..|s| - |t|])
    requires |r| <= |t| && r == t[..|r|] && AllWhitespace(t[|r|..])
    ensures Framed(s, |s| - |t|, r)
  {
    var n := |s| - |t|;
    assert s[n..n + |r|] == t[..|r|];
    assert s[n + |r|..] == t[|r|..];
  }

  /** A framed stretch that does not start with whitespace is empty exactly when `s` is blank. */
  lemma {:induction false} FramedBlank(s: string, n: nat, r: string)
    requires Framed(s, n, r) && (r == [] || !IsWhitespace(r[0]))
    ensures r == [] <==> AllWhitespace(s)
  {
    if r == [] {
      assert s == s[..n] + s[n..];
      assert forall i | 0 <= i < |s| :: (i < n && s[i] == s[..n][i]) || (i >= n && s[i] == s[n..][i - n]);
    } else {
      assert s[n] == r[0];
    }
  }

  /** `trim()` is the only framed stretch with non-whitespace ends: whatever whitespace surrounds
      such a stretch, trimming gives back exactly that stretch. */
  lemma {:induction false} TrimUnique(s: string, n: nat, r: string)
    requires Framed(s, n, r) && r != [] && !IsWhitespace(r[0]) && !IsWhitespace(r[|r| - 1])
    ensures Trim(s) == r
  {
    var t := Trim(s);
    var m := |s| - |TrimStart(s)|;
    assert s[n] == r[0] && s[n + |r| - 1] == r[|r| - 1];
    assert t != [];
    assert s[m] == t[0] && s[m + |t| - 1] == t[|t| - 1];
    FramedOutside(s, n, r);
    FramedOutside(s, m, t);
  }

  /** Every character outside a framed stretch is whitespace. */
  lemma FramedOutside(s: string, n: nat, r: string)
    requires Framed(s, n, r)
    ensures forall i | 0 <= i < |s| && (i < n || n + |r| <= i) :: IsWhitespace(s[i])
  {
    forall i | 0 <= i < |s| && (i < n || n + |r| <= i) ensures IsWhitespace(s[i]) {
      if i < n {
        assert s[..n][i] == s[i];
      } else {
        assert s[n + |r|..][i - n - |r|] == s[i];
      }
    }
  }

  /** Padding a framed text with whitespace on both sides keeps the same stretch framed. */
  lemma {:induction false} FramedPadded(s: string, n: nat, r: string, a: string, b: string)
    requires Framed(s, n, r) && AllWhitespace(a) && AllWhitespace(b)
    ensures Framed(a + s + b, |a| + n, r)
  {
    var u := a + s + b;
    var k := |a| + n;
    assert u[..k] == a + s[..n];
    assert u[k..k + |r|] == s[n..n + |r|];
    assert u[k + |r|..] == s[n + |r|..] + b;
    AllWhitespaceJoin(a, s[..n]);
    AllWhitespaceJoin(s[n + |r|..], b);
  }

  /** Extra whitespace on either side never changes what `trim()` returns. */
  lemma {:induction false} TrimPadded(s: string, a: string, b: string)
    requires AllWhitespace(a) && AllWhitespace(b)
    ensures Trim(a + s + b) == Trim(s)
  {
    if Trim(s) == [] {
      AllWhitespaceJoin(a, s);
      AllWhitespaceJoin(a + s, b);
    } else {
      TrimPaddedText(s, a, b);
    }
  }

  lemma TrimPaddedText(s: string, a: string, b: string)
    requires AllWhitespace(a) && AllWhitespace(b) && Trim(s) != []
    ensures Trim(a + s + b) == Trim(s)
  {
    var t := Trim(s);
    var n := |s| - |TrimStart(s)|;
    FramedPadded(s, n, t, a, b);
    TrimUnique(a + s + b, |a| + n, t);
  }

  lemma AllWhitespaceJoin(x: string, y: string)
    requires AllWhitespace(x) && AllWhitespace(y)
    ensures AllWhitespace(x + y)
  {
    assert forall i | |x| <= i < |x + y| :: (x + y)[i] == y[i - |x|];
  }

  /** JavaScript's `s.slice(0, n)` for a non-negative `n`. */
  function Take(s: string, n: nat): (r: string)
    ensures r <= s
    ensures |r| == Min(n, |s|)
  {
    if |s| <= n then s else s[..n]
  }
}

=== FILE: worker.dfy ===
/** The embedding worker: one run takes a batch of pending jobs and drives each one through
    mark-processing, document read, provider call, embedding write and the done or failure write.
    Every collaborator's answer is a parameter, so processing a given batch is a pure function
    of the store and those answers. */
module Worker {
  import opened Wrappers
  import opened Jobs

  /** The embedding provider either throws or answers; an answer whose first item has no
      embedding array is `Replied(None)`. */
  datatype ProviderReply = Threw(message: string) | Replied(embedding: Option<Embedding>)

  /** How each collaborator call made while processing one job turns out. */
  datatype Calls = Calls(
    markProcessing: Outcome,
    readDocument: Outcome,
    embed: ProviderReply,
    writeEmbedding: Outcome,
    markDone: Outcome,
    markFailed: Outcome)

  /** A collaborator call the worker made, in the order it made them. */
  datatype Call =
    | MarkProcessing(job: JobId)
    | ReadDocument(document: DocumentId)
    | Embed(text: string)
    | WriteEmbedding(document: DocumentId, embedding: Embedding)
    | MarkDone(job: JobId)
    | MarkFailed(job: JobId, attempts: int, lastError: string, status: Status)

  /** One item of the report's `results`. */
  datatype Entry = Entry(jobId: JobId, status: Status, note: Option<string>)

  /** The body of a run that processed a batch. */
  datatype Report = Report(processed: nat, batch: nat, results: seq<Entry>)

  /** The three answers a run gives: the jobs query failed, there was nothing to do, or a report. */
  datatype RunOutcome = FetchFailed | NoPendingJobs | Completed(report: Report)

  /** Why the try block threw, one case per `throw` of the try block. */
  datatype Failure =
    | DocumentReadFailed(detail: string)
    | DocumentNotFound
    | ContentEmpty
    | ProviderFailed(message: string)
    | NoEmbedding
    | EmbeddingWriteFailed(detail: string)
    | DoneWriteFailed(detail: string)

  /** The message each failure throws; a provider exception keeps its own message. */
  function Message(f: Failure): string {
    match f
    case DocumentReadFailed(detail) => "Failed to fetch document: " + detail
    case DocumentNotFound => "Document not found"
    case ContentEmpty => "Document content is empty"
    case ProviderFailed(message) => message
    case NoEmbedding => "OpenAI returned no embedding"
    case EmbeddingWriteFailed(detail) => "Failed to update document embedding: " + detail
    case DoneWriteFailed(detail) => "Failed to mark job done: " + detail
  }

  /** Apart from a provider exception, whose text is the provider's own, the report note tells
      exactly which failure happened and with which detail. */
  lemma MessageIdentifiesFailure(f: Failure, g: Failure)
    requires !f.ProviderFailed? && !g.ProviderFailed?
    requires Message(f) == Message(g)
    ensures f == g
  {
    var m := Message(f);
    assert |m| > 10 && m[0] == Message(g)[0] && m[9] == Message(g)[9] && m[10] == Message(g)[10];
    match f
    case DocumentReadFailed(d) => PrefixCancel("Failed to fetch document: ", d, g.detail);
    case EmbeddingWriteFailed(d) => PrefixCancel("Failed to update document embedding: ", d, g.detail);
    case DoneWriteFailed(d) => PrefixCancel("Failed to mark job done: ", d, g.detail);
    case _ =>
  }

  /** Two messages that share `prefix` carry the same detail after it. */
  lemma PrefixCancel(prefix: string, d: string, d': string)
    requires prefix + d == prefix + d'
    ensures d == d'
  {
    assert (prefix + d)[|prefix|..] == d;
  }

  /** A stage of the try block either yields a value or throws. */
  datatype Stage<T> = Ok(value: T) | Thrown(failure: Failure)

  /** The try block's effect: the documents after its writes, why it threw (nothing when the
      job was marked done), and the calls it made. */
  datatype Try = Try(documents: Documents, failure: Option<Failure>, calls: seq<Call>)

  /** Result of processing one job. */
  datatype Step = Step(store: Store, entry: Entry, calls: seq<Call>)

  /** Result of processing a sequence of jobs. */
  datatype Progress = Progress(store: Store, processed: nat, results: seq<Entry>, calls: seq<Call>)

  /** The try block gets as far as storing the vector: the document is readable and present, its
      text is not blank, the provider answers with an array, and the embedding write goes through. */
  predicate EmbeddingStored(docs: Documents, job: Job, c: Calls) {
    && c.readDocument.Pass?
    && job.documentId in docs
    && !IsBlank(docs[job.documentId].content)
    && c.embed.Replied? && c.embed.embedding.Some?
    && c.writeEmbedding.Pass?
  }

  /** Every stage of the try block succeeds: the vector is stored and the done write goes through. */
  predicate HappyPath(docs: Documents, job: Job, c: Calls) {
    EmbeddingStored(docs, job, c) && c.markDone.Pass?
  }

  /** The worker only ever writes embeddings: no document appears or disappears, texts stay,
      and a stored embedding is never removed. */
  predicate DocumentsKept(docs: Documents, docs': Documents) {
    && docs'.Keys == docs.Keys
    && forall d | d in docs ::
         && docs'[d].content == docs[d].content
         && (docs[d].embedding.Some? ==> docs'[d].embedding.Some?)
  }

  /** Every text handed to the provider is non-blank. */
  predicate EmbedsOnlyText(calls: seq<Call>) {
    forall i | 0 <= i < |calls| && calls[i].Embed? :: !IsBlank(Some(calls[i].text))
  }

  /** Every text handed to the provider while processing `job` is its document's content. */
  predicate EmbedsDocument(docs: Documents, job: Job, calls: seq<Call>) {
    forall i | 0 <= i < |calls| && calls[i].Embed? ::
      job.documentId in docs && docs[job.documentId].content == Some(calls[i].text)
  }

  lemma EmbedsAppend(docs: Documents, job: Job, a: seq<Call>, b: seq<Call>)
    ensures EmbedsOnlyText(a) && EmbedsOnlyText(b) ==> EmbedsOnlyText(a + b)
    ensures EmbedsDocument(docs, job, a) && EmbedsDocument(docs, job, b) ==> EmbedsDocument(docs, job, a + b)
  {
    assert forall i | |a| <= i < |a + b| :: (a + b)[i] == b[i - |a|];
  }

  /** Read the job's document and reject a missing or blank one. */
  function ReadText(docs: Documents, job: Job, c: Calls): (r: Stage<string>)
    ensures r.Ok? <==> c.readDocument.Pass? && job.documentId in docs && !IsBlank(docs[job.documentId].content)
    ensures r.Ok? ==> docs[job.documentId].content == Some(r.value) && !IsBlank(Some(r.value))
  {
    if c.readDocument.Fail? then Thrown(DocumentReadFailed(c.readDocument.message))
    else if job.documentId !in docs then Thrown(DocumentNotFound)
    else if IsBlank(docs[job.documentId].content) then Thrown(ContentEmpty)
    else Ok(docs[job.documentId].content.value)
  }

  /** Ask the provider: its vector, or the message of its failure. */
  function Provide(c: Calls): (r: Stage<Embedding>)
    ensures r.Ok? <==> c.embed.Replied? && c.embed.embedding.Some?
    ensures r.Ok? ==> r.value == c.embed.embedding.value
  {
    match c.embed
    case Threw(message) => Thrown(ProviderFailed(message))
    case Replied(None) => Thrown(NoEmbedding)
    case Replied(Some(v)) => Ok(v)
  }

  /** Store the vector on the document, then mark the job done. The vector stays
      stored even when the done write fails. */
  function Persist(docs: Documents, job: Job, v: Embedding, c: Calls): (t: Try)
    requires job.documentId in docs
    ensures t.failure.None? <==> c.writeEmbedding.Pass? && c.markDone.Pass?
    ensures t.documents ==
      if c.writeEmbedding.Pass? then docs[job.documentId := docs[job.documentId].(embedding := Some(v))]
      else docs
    ensures forall i | 0 <= i < |t.calls| :: !t.calls[i].Embed?
  {
    var written := [WriteEmbedding(job.documentId, v)];
    if c.writeEmbedding.Fail? then
      Try(docs, Some(EmbeddingWriteFailed(c.writeEmbedding.message)), written)
    else
      var docs' := docs[job.documentId := docs[job.documentId].(embedding := Some(v))];
      if c.markDone.Fail? then
        Try(docs', Some(DoneWriteFailed(c.markDone.message)), written + [MarkDone(job.id)])
      else
        Try(docs', None, written + [MarkDone(job.id)])
  }

  /** The try block for `job`: read, embed, store, mark done. It fails exactly when some stage fails; on
      success the job's document holds the provider's vector; blank content fails before the
      provider is asked. */
  function TryEmbed(docs: Documents, job: Job, c: Calls): (t: Try)
    ensures t.documents ==
      if EmbeddingStored(docs, job, c) then docs[job.documentId := docs[job.documentId].(embedding := c.embed.embedding)]
      else docs
    ensures t.failure.None? <==> HappyPath(docs, job, c)
    ensures t.failure.None? ==>
      job.documentId in t.documents && t.documents[job.documentId].embedding == Some(c.embed.embedding.value)
    ensures c.readDocument.Pass? && job.documentId in docs && IsBlank(docs[job.documentId].content) ==>
      t.failure == Some(ContentEmpty) && t.calls == [ReadDocument(job.documentId)]
  {
    var read := [ReadDocument(job.documentId)];
    match ReadText(docs, job, c)
    case Thrown(f) => Try(docs, Some(f), read)
    case Ok(text) =>
      var asked := read + [Embed(text)];
      match Provide(c)
      case Thrown(f) => Try(docs, Some(f), asked)
      case Ok(v) =>
        var p := Persist(docs, job, v, c);
        Try(p.documents, p.failure, asked + p.calls)
  }

  /** The provider is asked only for the job's document's non-blank text. */
  lemma TryEmbedAsksForText(docs: Documents, job: Job, c: Calls)
    ensures EmbedsOnlyText(TryEmbed(docs, job, c).calls)
    ensures EmbedsDocument(docs, job, TryEmbed(docs, job, c).calls)
  {
    var t := TryEmbed(docs, job, c);
    match ReadText(docs, job, c)
    case Thrown(_) =>
      assert t.calls == [ReadDocument(job.documentId)];
    case Ok(text) =>
      var asked := [ReadDocument(job.documentId)] + [Embed(text)];
      assert EmbedsDocument(docs, job, asked) && EmbedsOnlyText(asked) by {
        assert asked[1] == Embed(text);
      }
      match Provide(c)
      case Thrown(_) =>
        assert t.calls == asked;
      case Ok(v) =>
        var p := Persist(docs, job, v, c);
        assert t.calls == asked + p.calls;
        EmbedsAppend(docs, job, asked, p.calls);
  }

  /** Which failure each stage throws: the try block stops at the first failing stage, and a
      failed done write still leaves the vector stored. */
  lemma FailureKinds(docs: Documents, job: Job, c: Calls)
    ensures var t := TryEmbed(docs, job, c);
      && (c.readDocument.Fail? ==> t.failure == Some(DocumentReadFailed(c.readDocument.message)))
      && (c.readDocument.Pass? && job.documentId !in docs ==> t.failure == Some(DocumentNotFound))
      && (ReadText(docs, job, c).Ok? && c.embed.Threw? ==> t.failure == Some(ProviderFailed(c.embed.message)))
      && (ReadText(docs, job, c).Ok? && c.embed == Replied(None) ==> t.failure == Some(NoEmbedding))
      && (ReadText(docs, job, c).Ok? && Provide(c).Ok? && c.writeEmbedding.Fail? ==>
            t.failure == Some(EmbeddingWriteFailed(c.writeEmbedding.message)))
      && (ReadText(docs, job, c).Ok? && Provide(c).Ok? && c.writeEmbedding.Pass? && c.markDone.Fail? ==>
            && t.failure == Some(DoneWriteFailed(c.markDone.message))
            && t.documents[job.documentId].embedding == Some(c.embed.embedding.value))
  {
    match ReadText(docs, job, c)
    case Thrown(_) =>
    case Ok(text) =>
      match Provide(c)
      case Thrown(_) =>
      case Ok(v) =>
        var p := Persist(docs, job, v, c);
        assert TryEmbed(docs, job, c).failure == p.failure;
  }

  /** How one job's row ends up, given the row before the run (`row`), the dequeued snapshot
      whose count the failure write uses (`job`), its report entry and its collaborators'
      answers. A success clears `last_error` and keeps `attempts`; a failure records one more
      attempt, `error` exactly when the budget is spent, and a bounded prefix of the message,
      unless the failure write itself fails, which leaves the row as the processing mark left it. */
  predicate Settled(row: Job, job: Job, e: Entry, c: Calls, after: Job) {
    if e.status == Done then
      e.note.None? && after == row.(status := Done, lastError := None)
    else
      && e.note.Some?
      && (e.status == Error <==> job.attempts.GetOr(0) + 1 >= MAX_ATTEMPTS)
      && (e.status == Pending <==> job.attempts.GetOr(0) + 1 < MAX_ATTEMPTS)
      && (c.markFailed.Pass? ==>
            && after.attempts == Some(job.attempts.GetOr(0) + 1)
            && after.status == e.status
            && after.lastError.Some?
            && after.lastError.value <= e.note.value
            && |after.lastError.value| == Min(MAX_ERROR_LENGTH, |e.note.value|)
            && after.(attempts := row.attempts, lastError := row.lastError, status := row.status) == row)
      && (c.markFailed.Fail? ==>
            after == if c.markProcessing.Pass? then row.(status := Processing) else row)
  }

  /** The job row after processing: the processing mark (whose error is ignored), then the done
      write on success, or the failure write, which may itself fail. */
  function SettleRow(row: Job, job: Job, c: Calls, failure: Option<Failure>): (r: Job)
    ensures Settled(row, job, ReportEntry(job, failure), c, r)
  {
    var marked := if c.markProcessing.Pass? then row.(status := Processing) else row;
    match failure
    case None => DoneRow(marked)
    case Some(f) => if c.markFailed.Pass? then FailedRow(marked, job, Message(f)) else marked
  }

  /** The report entry for a job whose try block threw `failure` (or nothing). */
  function ReportEntry(job: Job, failure: Option<Failure>): (e: Entry)
    ensures e.jobId == job.id
    ensures e.status == Done <==> failure.None?
    ensures e.note.None? <==> failure.None?
    ensures failure.Some? ==>
      && e.note == Some(Message(failure.value))
      && (e.status == Error <==> job.attempts.GetOr(0) + 1 >= MAX_ATTEMPTS)
      && (e.status == Pending <==> job.attempts.GetOr(0) + 1 < MAX_ATTEMPTS)
  {
    match failure
    case None => Entry(job.id, Done, None)
    case Some(f) => Entry(job.id, FailureStatus(NextAttempts(job)), Some(Message(f)))
  }

  /** The calls made for one job: the processing mark, the try block's calls, and the failure
      write when the try block threw. */
  function JobCalls(job: Job, t: Try): seq<Call> {
    var calls := [MarkProcessing(job.id)] + t.calls;
    match t.failure
    case None => calls
    case Some(f) =>
      var failed := FailedRow(job, job, Message(f));
      calls + [MarkFailed(job.id, failed.attempts.value, failed.lastError.value, failed.status)]
  }

  /** One iteration of the worker's loop. Only the job's own row changes, and the job is
      reported `done` exactly when every stage of the try block succeeds. */
  function ProcessJob(s: Store, job: Job, c: Calls): (st: Step)
    requires job.id in s.jobs
    ensures st.entry.jobId == job.id
    ensures st.entry.status == Done <==> HappyPath(s.documents, job, c)
    ensures st.store.jobs.Keys == s.jobs.Keys
    ensures forall k | k in s.jobs && k != job.id :: st.store.jobs[k] == s.jobs[k]
  {
    var t := TryEmbed(s.documents, job, c);
    Step(Store(s.jobs[job.id := SettleRow(s.jobs[job.id], job, c, t.failure)], t.documents),
         ReportEntry(job, t.failure), JobCalls(job, t))
  }

  /** How far the try block gets depends only on which documents exist and on their texts, so
      writes of embeddings by earlier jobs never change a later job's outcome. */
  lemma KeptDocumentsSameOutcome(docs: Documents, docs': Documents, job: Job, c: Calls)
    requires DocumentsKept(docs, docs')
    ensures EmbeddingStored(docs', job, c) <==> EmbeddingStored(docs, job, c)
    ensures HappyPath(docs', job, c) <==> HappyPath(docs, job, c)
    ensures TryEmbed(docs', job, c).failure == TryEmbed(docs, job, c).failure
  {
    assert ReadText(docs', job, c) == ReadText(docs, job, c);
    match ReadText(docs, job, c)
    case Thrown(_) =>
    case Ok(text) =>
      match Provide(c)
      case Thrown(_) =>
      case Ok(v) =>
        assert TryEmbed(docs, job, c).failure == Persist(docs, job, v, c).failure;
        assert TryEmbed(docs', job, c).failure == Persist(docs', job, v, c).failure;
  }

  /** The job's row and report entry obey the retry policy (see `Settled`), and a failed job's
      report carries the message its try block threw, of which `last_error` keeps a prefix. */
  lemma ProcessJobSettles(s: Store, job: Job, c: Calls)
    requires job.id in s.jobs
    ensures var st := ProcessJob(s, job, c);
      Settled(s.jobs[job.id], job, st.entry, c, st.store.jobs[job.id])
    ensures var st := ProcessJob(s, job, c);
      var t := TryEmbed(s.documents, job, c);
      st.entry.status != Done ==> t.failure.Some? && st.entry.note == Some(Message(t.failure.value))
  {
  }

  /** Processing a job writes at most its own document's embedding, exactly when the try block
      reaches a passing embedding write, and a `done` job's document holds exactly the provider's
      vector. */
  lemma ProcessJobDocuments(s: Store, job: Job, c: Calls)
    requires job.id in s.jobs
    ensures var st := ProcessJob(s, job, c);
      && st.store.documents ==
           (if EmbeddingStored(s.documents, job, c)
            then s.documents[job.documentId := s.documents[job.documentId].(embedding := c.embed.embedding)]
            else s.documents)
      && (st.entry.status == Done ==>
            job.documentId in st.store.documents
            && st.store.documents[job.documentId].embedding == Some(c.embed.embedding.value))
  {
  }

  /** The processing mark is the first call, before any provider call, and the provider is asked
      only for the job's document's non-blank text. */
  lemma ProcessJobCalls(s: Store, job: Job, c: Calls)
    requires job.id in s.jobs
    ensures var st := ProcessJob(s, job, c);
      && |st.calls| >= 2 && st.calls[0] == MarkProcessing(job.id)
      && EmbedsOnlyText(st.calls) && EmbedsDocument(s.documents, job, st.calls)
  {
    var t := TryEmbed(s.documents, job, c);
    TryEmbedAsksForText(s.documents, job, c);
    var calls := [MarkProcessing(job.id)] + t.calls;
    EmbedsAppend(s.documents, job, [MarkProcessing(job.id)], t.calls);
    if t.failure.Some? {
      var failed := FailedRow(job, job, Message(t.failure.value));
      EmbedsAppend(s.documents, job, calls,
        [MarkFailed(job.id, failed.attempts.value, failed.lastError.value, failed.status)]);
    }
  }
}

=== FILE: wrappers.dfy ===
/** Small datatypes and helpers shared by the queue worker and the suggestion handler: optional
    values, pass-or-fail outcomes, and the minimum of two integers. */
module Wrappers {

  /** A value that may be absent: a nullable column, an omitted request field. */
  datatype Option<+T> = None | Some(value: T) {

    /** The carried value, or `default` when absent (JavaScript's `x ?? default`). */
    function GetOr(default: T): T {
      match this
      case Some(v) => v
      case None => default
    }
  }

  /** The result of a store call that either succeeds or fails with a message. */
  datatype Outcome = Pass | Fail(message: string)

  /** The smaller of `a` and `b`, as `Math.min` and the length bound of `slice` use it. */
  function Min(a: int, b: int): int {
    if a <= b then a else b
  }
}
